=== FILE: README.md ===
# User model of we-plugin-user, in Dafny

This project models the security rules around user records in the `User` model of
the we.js user plugin (`server/models/User.js`):

- the two username checks: the schema pattern and the reserved-name filter;
- password verification, in its synchronous and callback modes;
- the `beforeCreate` and `beforeUpdate` lifecycle hooks;
- the viewer-dependent projection `toJSON`;
- the batch role assignment `addRole`.

The model is functional. Payloads and records are `map<string, Value>`, where `Value` is a
JavaScript value with its truthiness (`Values`). Hook and store errors are `Result` and
`Outcome` values (`Wrappers`). The things this code calls but does not define are parameters:
- bcrypt hashing is a function `Value -> Result<string, string>`, and a fresh salt is a different choice of that function;
- bcrypt comparison is a function `(Value, Value) -> Result<bool, string>`. One such parameter stands for both `compareSync` (synchronous mode) and the asynchronous `compare` (callback mode). So `Passwords.ModesAgree` assumes the two bcrypt entry points agree;
- `SanitizeHtmlService.sanitizeAllAttr` is modelled by `Hooks.Sanitize`, which assumes three things. It cleans every string attribute with one function `string -> string`, whatever the attribute's name. Values that are not strings pass through unchanged. It keeps the key set;
- the store's `User.find(ids)` is modelled by `Roles.Fetch`: the listed ids that have a user in the store;
- the store's fetch error and per-user save errors are given to `addRole` as inputs (`fetchError`, `saveError`);
- the request is passed to `toJSON` explicitly instead of being read from `this.req`.

Modules: `Usernames`, `Passwords`, `Hooks`, `Projection` and `Roles` follow the parts of
`User.js`. `Wrappers` and `Values` hold the shared types.

Behaviour of the code that the model keeps:
- The hooks test `password` / `newPassword` for JavaScript truthiness, not presence. A falsy `password` is removed on create. A falsy `newPassword` stays in the update payload.
- `addRole` wraps any save error in one message. Saves run in parallel, so the error reported is whichever failing save answers first. The model reports the error of one failing user, without saying which one. The saves do not interfere, and the stored result is the same in every completion order (`Roles.SaveInOrderIsGranted`). So the model saves users one after another.
- A raw `password` sent to `beforeUpdate` without a truthy `newPassword` passes through sanitized but unhashed. With a truthy `newPassword`, its hash overwrites the raw value. So an update keeps the stored password hashed when the caller sends no raw `password`, or sends a truthy `newPassword` with it (`Hooks.UpdatePassesRawPassword`, `Hooks.UpdateKeepsPasswordHashed`).
- `beforeCreate` hashes the sanitized password. So the password that verifies against the stored hash is the sanitized one (`Hooks.CreatedPasswordVerifies`).
- The model assumes `sanitizeAllAttr` returns the same object it was given. The hooks mutate the object it returns, and the ORM stores the object it passed in.

## Model

| member | source | states |
|---|---|---|
| `Usernames.MatchUsername` | server/models/User.js:24 | the scan accepts exactly the strings of 4 to 30 characters drawn from `[A-Za-z0-9_-]` |
| `Usernames.IndexOf` | server/models/User.js:239 | the position found holds a name strictly equal to the value and no earlier position does; -1 exactly when the value is not a listed string |
| `Usernames.ValidUsername` | server/models/User.js:228-243 | false exactly for the strings logout, login, auth, api, admin, account, user; true for every other value, strings and non-strings alike |
| `Usernames.OnlyApiFailsPattern` | server/models/User.js:229-237 | every reserved name except "api" passes the schema pattern, so the filter is not subsumed by the pattern |
| `Passwords.VerifyPassword` | server/models/User.js:163-171 | a falsy stored hash gives false whatever the password; otherwise the comparator's verdict or its error |
| `Passwords.VerifyPasswordWithCallback` | server/models/User.js:165-173 | the callback is called with (null, false) for a falsy stored hash, otherwise with (null, verdict) or (error) from bcrypt's comparison |
| `Passwords.ModesAgree` | server/models/User.js:163-174 | the callback receives the verdict the synchronous mode returns, and an error exactly when the synchronous mode throws |
| `Passwords.GeneratedHashVerifies` | server/models/User.js:147-153 | with a sound bcrypt, a hash generated from a password verifies against that password |
| `Hooks.BeforeCreate` | server/models/User.js:177-199 | output never has consumers, isAdmin or isModerator; other keys kept and sanitized, none added; a truthy sanitized password is replaced by its hash, a falsy one removed; a hash error aborts |
| `Hooks.BeforeUpdate` | server/models/User.js:201-217 | a truthy sanitized newPassword becomes password = its hash and newPassword is dropped; otherwise the output is the sanitized payload; isAdmin, isModerator and all other keys pass through sanitized; a hash error aborts |
| `Hooks.CreateStoresOnlyHashes` | server/models/User.js:184-198 | with a bcrypt whose hashes never equal their input, a created record's password, if any, is in the hash format and differs from the sanitized password sent |
| `Hooks.UpdateKeepsPasswordHashed` | server/models/User.js:201-217 | a stored password in the hash format shared by all salts stays in that format after an update that has no raw password key or has a truthy newPassword |
| `Hooks.UpdatePassesRawPassword` | server/models/User.js:201-216 | a raw password sent without a truthy newPassword reaches the store as sanitized, unhashed |
| `Hooks.CreatedPasswordVerifies` | server/models/User.js:186-193 | with a sound bcrypt, the sanitized password given at creation verifies against the stored hash |
| `Hooks.PasswordlessAccountNeverVerifies` | server/models/User.js:194-197 | an account created without a truthy password has none stored and every verification attempt gives false |
| `Projection.ToJSON` | server/models/User.js:95-124 | the view never has password or _context; it has email exactly when the viewer is logged in and is the user or an admin, with the record's email; type is "user"; a falsy displayName falls back to username; the id and every other attribute are copied unchanged |
| `Projection.ToJSONAsWritten` | server/models/User.js:95-123 | as written, `toJSON` throws a TypeError for every record and request |
| `Projection.EmailVisibility` | server/models/User.js:106-111 | anonymous and unauthenticated viewers never see the email; the user and an admin always do; any other user does not |
| `Roles.AddRole` | server/models/User.js:251-265 | a fetch error or an empty match fails and saves nothing; otherwise each fetched user whose save succeeds gains the role, everyone else is unchanged, and the result is an error exactly when some fetched user's save failed, carrying one such error |
| `Roles.SaveInOrderIsGranted` | server/models/User.js:257-260 | saving the fetched users one at a time, in any order that lists each once, leaves the same store as the per-user batch result `Granted` |
| `Roles.GrantedIdempotent` | server/models/User.js:258 | assigning the same role to the same batch twice leaves the store as once |
| `Roles.GrantedRoles` | server/models/User.js:257-259 | a user keeps all roles it had, and holds the role afterwards exactly when it had it or was fetched and saved |

## Left out

- `changePassword` (lines 130-138): it is a thin wrapper over the store's attribute update, and it ignores `oldPassword`.
- `customFindORCreate` (lines 220-226): a find-then-create over the store, with no logic of its own.
- The instance `verifyPassword` (lines 126-128): it only delegates to the static one.
- `generatePassword` internals (lines 147-153): bcrypt salt generation, the hash, and the configured work factor are one opaque, possibly failing function.
- bcrypt's own promises of constant-time comparison and of a fresh salt per call are not modelled. `Passwords.HidesPlaintext` assumes what the lemmas need of a hash: it is non-empty and never equal to its input. `Hooks.CreateStoresOnlyHashes` relies on it. `Passwords.Sound` adds that the comparison accepts the value a hash was produced from.
- `SanitizeHtmlService.sanitizeAllAttr` is modelled only by `Hooks.Sanitize`, under the assumptions listed above.
- ORM validation that needs the database or the ORM is left out: uniqueness, required fields, the email type, defaults, `maxLength` and relations (lines 13-93). Only the username pattern is kept.
- Concurrency in `addRole`: `async.each` saves in parallel. The model saves one user after another, attempts every save, and reports a single error.
- The error message strings of `addRole` are represented by the `RoleError` constructors, not the literal text.
- `delete this.req` in `toJSON`: the request is a parameter, and the record is an immutable value.
- Numbers are integers: floating point and `NaN` truthiness are not modelled.
- `commands/createUser.js`: command-line bootstrap with prompts, logging and process exit.

## Findings

| source | as written | input that shows it | evidently intended | confidence | as-written member | corrected member |
|---|---|---|---|---|---|---|
| server/models/User.js:99-104 | `delete obj.email` and `delete obj.password` run before `var obj = this.toObject()`; the hoisted `obj` is still undefined there, so the first delete throws a TypeError. Had it not thrown, line 104 would rebuild `obj` with the email and the password hash. | any record, any request | build the object, remove email and password hash, then restore the email for the user or an admin | high; not executed | `Projection.ToJSONAsWritten` | `Projection.ToJSON` |

=== FILE: hooks.dfy ===
/** The lifecycle callbacks `beforeCreate` and `beforeUpdate`: the guards every create
    and update payload passes through before it reaches the store. */
module Hooks {
  import opened Wrappers
  import opened Values
  import opened Passwords

  /** Keys a create payload may never carry: the consumers relation and the two privilege flags. */
  const Forbidden: set<string> := {"consumers", "isAdmin", "isModerator"}

  /** The HTML sanitizer applied to one string. */
  type Cleaner = string -> string

  /** The sanitizer applied to one attribute: strings are cleaned, other values pass. */
  function SanitizeValue(v: Value, clean: Cleaner): Value {
    if v.Str? then Str(clean(v.s)) else v
  }

  /** `sanitizeAllAttr`: every attribute sanitized, no attribute added or removed. */
  function Sanitize(p: Payload, clean: Cleaner): Payload {
    map k | k in p :: SanitizeValue(p[k], clean)
  }

  /** Replaces the attribute `from` by the hash of its value under the key "password",
      or reports the hash error. */
  function HashInto(p: Payload, from: string, hash: Hasher): Result<Payload, string>
    requires from in p
  {
    match hash(p[from])
    case Success(h) => Success((p - {from})["password" := Str(h)])
    case Failure(e) => Failure(e)
  }

  /** `beforeCreate`: drop the forbidden keys, sanitize, then either hash a truthy
      password in place or remove the password key. */
  function BeforeCreate(user: Payload, clean: Cleaner, hash: Hasher): (r: Result<Payload, string>)
    // the privilege flags and the consumers relation never survive
    ensures r.Success? ==> forall k :: k in Forbidden ==> k !in r.value
    // every other attribute is kept, sanitized, and nothing is added
    ensures r.Success? ==> forall k :: k != "password" && k in r.value ==>
              k in user && k !in Forbidden && r.value[k] == SanitizeValue(user[k], clean)
    ensures r.Success? ==> forall k :: k != "password" && k in user && k !in Forbidden ==> k in r.value
    // the password: hashed when truthy after sanitizing, removed otherwise
    ensures var pw := SanitizeValue(Get(user, "password"), clean);
            && (!Truthy(pw) ==> r.Success? && "password" !in r.value)
            && (Truthy(pw) && hash(pw).Failure? ==> r == Failure(hash(pw).error))
            && (Truthy(pw) && hash(pw).Success? ==>
                  r.Success? && "password" in r.value && r.value["password"] == Str(hash(pw).value))
  {
    var s := Sanitize(user - Forbidden, clean);
    if "password" in s && Truthy(s["password"]) then HashInto(s, "password", hash)
    else Success(s - {"password"})
  }

  /** `beforeUpdate`: sanitize, then turn a truthy `newPassword` into a hashed `password`.
      The privilege flags are not touched. */
  function BeforeUpdate(user: Payload, clean: Cleaner, hash: Hasher): (r: Result<Payload, string>)
    // without a truthy new password the update is the sanitized payload, password included
    ensures var np := SanitizeValue(Get(user, "newPassword"), clean);
            && (!Truthy(np) ==> r == Success(Sanitize(user, clean)))
            && (Truthy(np) && hash(np).Failure? ==> r == Failure(hash(np).error))
            && (Truthy(np) && hash(np).Success? ==>
                  && r.Success? && "newPassword" !in r.value
                  && "password" in r.value && r.value["password"] == Str(hash(np).value))
    // every attribute other than the two password keys passes through sanitized
    ensures r.Success? ==> forall k :: k != "password" && k != "newPassword" ==>
              (k in r.value <==> k in user) && (k in user ==> r.value[k] == SanitizeValue(user[k], clean))
  {
    var s := Sanitize(user, clean);
    if "newPassword" in s && Truthy(s["newPassword"]) then HashInto(s, "newPassword", hash)
    else Success(s)
  }

  /** Every successful output of the hasher has the hash format `isHash`. One format
      covers every salt, so records hashed with different salts share it. */
  ghost predicate ProducesHashes(hash: Hasher, isHash: string -> bool) {
    forall v :: hash(v).Success? ==> isHash(hash(v).value)
  }

  /** A stored record whose password, if any, is a string in the hash format `isHash`. */
  ghost predicate PasswordHashed(record: Payload, isHash: string -> bool) {
    "password" in record ==> record["password"].Str? && isHash(record["password"].s)
  }

  /** `beforeCreate` never lets a plaintext password through: a stored password is in
      the hash format, and it differs from the sanitized password sent. */
  lemma CreateStoresOnlyHashes(user: Payload, clean: Cleaner, hash: Hasher, isHash: string -> bool)
    requires HidesPlaintext(hash)
    requires ProducesHashes(hash, isHash)
    requires BeforeCreate(user, clean, hash).Success?
    ensures PasswordHashed(BeforeCreate(user, clean, hash).value, isHash)
    ensures "password" in BeforeCreate(user, clean, hash).value ==>
              BeforeCreate(user, clean, hash).value["password"] != SanitizeValue(Get(user, "password"), clean)
  {
  }

  /** Applying an update that went through `beforeUpdate` keeps the stored password in
      the hash format, whichever salt hashed it before, provided the payload carries no
      raw `password` or carries a truthy `newPassword` whose hash overwrites it. */
  lemma UpdateKeepsPasswordHashed(record: Payload, user: Payload, clean: Cleaner, hash: Hasher,
                                  isHash: string -> bool)
    requires PasswordHashed(record, isHash)
    requires ProducesHashes(hash, isHash)
    requires "password" !in user || Truthy(SanitizeValue(Get(user, "newPassword"), clean))
    requires BeforeUpdate(user, clean, hash).Success?
    ensures PasswordHashed(record + BeforeUpdate(user, clean, hash).value, isHash)
  {
  }

  /** `beforeUpdate` does not guard a raw `password` key sent without a truthy
      `newPassword`: it reaches the store as sanitized, unhashed. */
  lemma UpdatePassesRawPassword(plain: string, clean: Cleaner, hash: Hasher)
    requires clean(plain) == plain
    ensures BeforeUpdate(map["password" := Str(plain)], clean, hash) == Success(map["password" := Str(plain)])
  {
    var user := map["password" := Str(plain)];
    assert Sanitize(user, clean) == user;
  }

  /** The password set at creation verifies: the sanitized password the caller sent is
      accepted against the stored hash. */
  lemma CreatedPasswordVerifies(user: Payload, clean: Cleaner, hash: Hasher, compare: Comparator)
    requires Sound(hash, compare)
    requires BeforeCreate(user, clean, hash).Success?
    requires Truthy(SanitizeValue(Get(user, "password"), clean))
    ensures VerifyPassword(SanitizeValue(Get(user, "password"), clean),
                           Get(BeforeCreate(user, clean, hash).value, "password"), compare) == Success(true)
  {
  }

  /** An account created without a password can never be logged into by password. */
  lemma PasswordlessAccountNeverVerifies(user: Payload, clean: Cleaner, hash: Hasher,
                                         compare: Comparator, attempt: Value)
    requires !Truthy(SanitizeValue(Get(user, "password"), clean))
    ensures BeforeCreate(user, clean, hash).Success?
    ensures VerifyPassword(attempt, Get(BeforeCreate(user, clean, hash).value, "password"), compare) == Success(false)
  {
  }
}

=== FILE: passwords.dfy ===
/** Password hashing and verification. bcrypt itself is not modelled: the hash and
    the comparison are parameters. */
module Passwords {
  import opened Wrappers
  import opened Values

  /** `generatePassword`: salted bcrypt hash of a value, or the error bcrypt reports.
      A fresh salt per call is modelled by the caller's choice of function. */
  type Hasher = Value -> Result<string, string>

  /** bcrypt's comparison of a candidate password with a stored hash, or its error. */
  type Comparator = (Value, Value) -> Result<bool, string>

  /** What bcrypt promises of a produced hash: it is never empty and never the value
      it was produced from. */
  ghost predicate HidesPlaintext(hash: Hasher) {
    forall v :: hash(v).Success? ==> hash(v).value != "" && Str(hash(v).value) != v
  }

  /** The contract bcrypt gives hashing and comparison together: a produced hash hides
      its plaintext and the comparison accepts the value it was produced from. */
  ghost predicate Sound(hash: Hasher, compare: Comparator) {
    && HidesPlaintext(hash)
    && forall v :: hash(v).Success? ==> compare(v, Str(hash(v).value)) == Success(true)
  }

  /** The static `verifyPassword` without a callback: a falsy stored hash (no password
      set) gives false without consulting bcrypt; otherwise `compareSync` decides, and
      an exception it throws becomes a `Failure`. */
  function VerifyPassword(password: Value, hash: Value, compare: Comparator): (r: Result<bool, string>)
    ensures !Truthy(hash) ==> r == Success(false)
    ensures Truthy(hash) ==> r == compare(password, hash)
  {
    if !Truthy(hash) then Success(false)
    else compare(password, hash)
  }

  /** The static `verifyPassword` with a callback `cb(err, result)`: a falsy stored hash
      answers `cb(null, false)` at once; otherwise bcrypt's asynchronous compare later
      answers `cb(null, same)` or `cb(err)`. The result stands for the call made to `cb`
      (its arguments, through what `cb` makes of them), not for the value `verifyPassword`
      returns, which is `undefined` in the asynchronous case. The one `compare`
      parameter stands for both bcrypt's `compareSync` and its asynchronous `compare`. */
  function VerifyPasswordWithCallback<T>(password: Value, hash: Value, compare: Comparator,
                                         cb: (Option<string>, Option<bool>) -> T): (r: T)
    ensures !Truthy(hash) ==> r == cb(None, Some(false))
    ensures Truthy(hash) && compare(password, hash).Success? ==> r == cb(None, Some(compare(password, hash).value))
    ensures Truthy(hash) && compare(password, hash).Failure? ==> r == cb(Some(compare(password, hash).error), None)
  {
    if !Truthy(hash) then cb(None, Some(false))
    else
      match compare(password, hash)
      case Success(same) => cb(None, Some(same))
      case Failure(e) => cb(Some(e), None)
  }

  /** Both modes agree: the callback receives exactly the verdict the synchronous mode
      returns, and an error exactly when the synchronous mode throws. */
  lemma ModesAgree<T>(password: Value, hash: Value, compare: Comparator,
                      cb: (Option<string>, Option<bool>) -> T)
    ensures forall same :: VerifyPassword(password, hash, compare) == Success(same) ==>
              VerifyPasswordWithCallback(password, hash, compare, cb) == cb(None, Some(same))
    ensures forall e :: VerifyPassword(password, hash, compare) == Failure(e) ==>
              VerifyPasswordWithCallback(password, hash, compare, cb) == cb(Some(e), None)
  {
  }

  /** A freshly generated hash verifies against the password it was generated from. */
  lemma GeneratedHashVerifies(password: Value, hash: Hasher, compare: Comparator)
    requires Sound(hash, compare)
    requires hash(password).Success?
    ensures VerifyPassword(password, Str(hash(password).value), compare) == Success(true)
  {
  }
}

=== FILE: projection.dfy ===
/** `toJSON`: the view of a user record sent to a client, which depends on who asks. */
module Projection {
  import opened Wrappers
  import opened Values

  /** The requesting session: whether it is logged in, and the logged-in user's id and
      admin flag. The model passes it explicitly instead of reading `this.req`. */
  datatype Request = Request(authenticated: bool, userId: int, userIsAdmin: Value)

  /** A stored user: its id and its other attributes. */
  datatype UserRecord = UserRecord(id: int, attrs: Payload)

  /** Attributes the view always sets or removes itself. */
  const Managed: set<string> := {"id", "email", "password", "displayName", "type", "_context"}

  /** `this.toObject()`: a fresh plain copy of the record, id included. */
  function ToObject(rec: UserRecord): Payload {
    rec.attrs["id" := Num(rec.id)]
  }

  /** The email may be shown to a logged-in viewer who is the user or an admin.
      The source compares ids with `==`; with one id type this is plain equality. */
  predicate MaySeeEmail(req: Option<Request>, id: int) {
    req.Some? && req.value.authenticated && (req.value.userId == id || Truthy(req.value.userIsAdmin))
  }

  /** The part of `toJSON` after the object is built: restore the email for an entitled
      viewer, fall back to the username for a falsy display name, tag the type, drop the
      context cache. */
  function Finish(obj: Payload, rec: UserRecord, req: Option<Request>): Payload {
    var withEmail :=
      if req.Some? && req.value.authenticated && (Get(obj, "id") == Num(req.value.userId) || Truthy(req.value.userIsAdmin))
      then obj["email" := Get(rec.attrs, "email")] else obj;
    var named :=
      if !Truthy(Get(withEmail, "displayName")) then withEmail["displayName" := Get(withEmail, "username")]
      else withEmail;
    named["type" := Str("user")] - {"_context"}
  }

  /** `toJSON` as its comments describe it: build the object, remove the email and the
      password hash, then proceed. The record itself is a value and is left as it was.
      The source runs the two deletes on `obj` before `var obj = this.toObject()`; see
      `ToJSONAsWritten` for what that code does. */
  function ToJSON(rec: UserRecord, req: Option<Request>): (view: Payload)
    ensures "password" !in view && "_context" !in view
    ensures "email" in view <==> MaySeeEmail(req, rec.id)
    ensures "email" in view ==> view["email"] == Get(rec.attrs, "email")
    ensures "type" in view && view["type"] == Str("user")
    ensures "displayName" in view
    ensures !Truthy(Get(rec.attrs, "displayName")) ==> view["displayName"] == Get(rec.attrs, "username")
    ensures Truthy(Get(rec.attrs, "displayName")) ==> view["displayName"] == rec.attrs["displayName"]
    ensures "id" in view && view["id"] == Num(rec.id)
    ensures forall k :: k !in Managed ==> (k in view <==> k in rec.attrs) && (k in view ==> view[k] == rec.attrs[k])
  {
    Finish(ToObject(rec) - {"email", "password"}, rec, req)
  }

  /** `delete obj.k`: deleting a property of `undefined` throws a TypeError. */
  function DeleteKey(obj: Option<Payload>, k: string): Result<Option<Payload>, string> {
    match obj
    case None => Failure("TypeError: Cannot convert undefined or null to object")
    case Some(p) => Success(Some(p - {k}))
  }

  /** `toJSON` as written. `var obj` is hoisted to the top of the function, so at the
      two deletes `obj` is still `undefined`. Had they not thrown, the object would be
      rebuilt afterwards from the record and keep the email and password hash. */
  function ToJSONAsWritten(rec: UserRecord, req: Option<Request>): (r: Result<Payload, string>)
    // as written, `toJSON` throws on every record and every request
    ensures r.Failure?
  {
    var obj: Option<Payload> := None;
    match DeleteKey(obj, "email")
    case Failure(e) => Failure(e)
    case Success(obj1) =>
      match DeleteKey(obj1, "password")
      case Failure(e) => Failure(e)
      case Success(_) => Success(Finish(ToObject(rec), rec, req))
  }

  /** Anonymous viewers never see an email; the user and any admin always do. */
  lemma EmailVisibility(rec: UserRecord, viewer: int, admin: Value)
    ensures "email" !in ToJSON(rec, None)
    ensures "email" !in ToJSON(rec, Some(Request(false, viewer, admin)))
    ensures "email" in ToJSON(rec, Some(Request(true, rec.id, admin)))
    ensures Truthy(admin) ==> "email" in ToJSON(rec, Some(Request(true, viewer, admin)))
    ensures viewer != rec.id && !Truthy(admin) ==> "email" !in ToJSON(rec, Some(Request(true, viewer, admin)))
  {
  }
}

=== FILE: roles.dfy ===
/** `addRole`: attach one role to every user of a batch, over an abstract store. */
module Roles {
  import opened Wrappers

  type UserId = int
  type RoleId = int

  /** The part of a stored user that `addRole` touches: its role memberships. */
  datatype Account = Account(roles: set<RoleId>)

  /** The user store: id to account. */
  type Store = map<UserId, Account>

  /** What `addRole` reports to its callback on failure. */
  datatype RoleError =
    | FetchFailed(cause: string)    // the store's find failed; its error is passed on
    | NoUserFound(ids: seq<UserId>) // the find matched no user at all
    | SaveFailed(cause: string)     // at least one per-user save failed

  /** `User.find(ids)`: the users of the store whose id is listed; ids with no user are ignored. */
  function Fetch(ids: seq<UserId>, store: Store): set<UserId> {
    set id | id in ids && id in store
  }

  /** The account after `roles.add(role)`. */
  function Grant(a: Account, role: RoleId): Account {
    a.(roles := a.roles + {role})
  }

  /** The store after a batch, stated per user: every fetched user whose save succeeds
      holds the role, every other user is as before. */
  function Granted(store: Store, fetched: set<UserId>, role: RoleId, saveError: UserId -> Option<string>): (s: Store)
    ensures s.Keys == store.Keys
  {
    map id | id in store :: if id in fetched && saveError(id).None? then Grant(store[id], role) else store[id]
  }

  /** The saves of `async.each`, performed one after the other in the given order: each
      user present in the store gains the role when its save succeeds. */
  function SaveInOrder(store: Store, order: seq<UserId>, role: RoleId,
                       saveError: UserId -> Option<string>): Store
  {
    if |order| == 0 then store
    else
      var id := order[0];
      var next := if id in store && saveError(id).None? then store[id := Grant(store[id], role)] else store;
      SaveInOrder(next, order[1..], role, saveError)
  }

  /** No user appears twice in the order. */
  predicate Distinct(order: seq<UserId>) {
    forall i, j :: 0 <= i < j < |order| ==> order[i] != order[j]
  }

  /** Saving one more user first and the rest as a batch is the batch over both. */
  lemma GrantedStep(store: Store, id: UserId, rest: set<UserId>, role: RoleId,
                    saveError: UserId -> Option<string>)
    requires id in store && id !in rest
    ensures var next := if saveError(id).None? then store[id := Grant(store[id], role)] else store;
            Granted(next, rest, role, saveError) == Granted(store, {id} + rest, role, saveError)
  {
  }

  /** Whatever order the parallel saves complete in, the store ends up the same: saving
      the fetched users one by one, in any order that lists each exactly once, is the
      per-user batch result. This is why the saves may be modelled sequentially. */
  lemma {:induction false} SaveInOrderIsGranted(store: Store, order: seq<UserId>, role: RoleId,
                                                saveError: UserId -> Option<string>)
    requires Distinct(order)
    requires forall i :: 0 <= i < |order| ==> order[i] in store
    ensures SaveInOrder(store, order, role, saveError) == Granted(store, set i | 0 <= i < |order| :: order[i], role, saveError)
  {
    var all := set i | 0 <= i < |order| :: order[i];
    if |order| == 0 {
      assert all == {};
      var g := Granted(store, all, role, saveError);
      forall k | k in store
        ensures g[k] == store[k]
      {
      }
    } else {
      var id := order[0];
      var rest := set i | 0 <= i < |order[1..]| :: order[1..][i];
      var next := if saveError(id).None? then store[id := Grant(store[id], role)] else store;
      forall i | 0 <= i < |order[1..]|
        ensures order[1..][i] in next
      {
        assert order[1..][i] == order[i + 1];
      }
      assert Distinct(order[1..]) by {
        forall i, j | 0 <= i < j < |order[1..]|
          ensures order[1..][i] != order[1..][j]
        {
          assert order[1..][i] == order[i + 1] && order[1..][j] == order[j + 1];
        }
      }
      SaveInOrderIsGranted(next, order[1..], role, saveError);
      assert id !in rest;
      assert all == {id} + rest by {
        forall x | x in all
          ensures x in {id} + rest
        {
          var i :| 0 <= i < |order| && order[i] == x;
          if i > 0 {
            assert order[1..][i - 1] == x;
          }
        }
        forall x | x in rest
          ensures x in all
        {
          var i :| 0 <= i < |order[1..]| && order[1..][i] == x;
          assert order[i + 1] == x;
        }
      }
      GrantedStep(store, id, rest, role, saveError);
    }
  }

  /** `addRole(ids, role)`. The fetch's error, if any, is `fetchError`; the save of user
      `id` fails with `saveError(id)`, if any. The source saves in parallel; here the
      users are saved one after the other, every save is attempted, and one of the
      save errors is reported. */
  method AddRole(ids: seq<UserId>, role: RoleId, store: Store,
                 fetchError: Option<string>, saveError: UserId -> Option<string>)
    returns (store': Store, r: Outcome<RoleError>)
    ensures fetchError.Some? ==> store' == store && r == Fail(FetchFailed(fetchError.value))
    ensures fetchError.None? && Fetch(ids, store) == {} ==> store' == store && r == Fail(NoUserFound(ids))
    ensures fetchError.None? && Fetch(ids, store) != {} ==>
              && store' == Granted(store, Fetch(ids, store), role, saveError)
              && (forall id :: id in store ==>
                    store'[id] == if id in ids && saveError(id).None? then Grant(store[id], role) else store[id])
              && (r.Fail? <==> exists id :: id in Fetch(ids, store) && saveError(id).Some?)
              && (r.Fail? ==> exists id :: id in Fetch(ids, store) && saveError(id).Some?
                                         && r.error == SaveFailed(saveError(id).value))
  {
    if fetchError.Some? {
      return store, Fail(FetchFailed(fetchError.value));
    }
    var fetched := Fetch(ids, store);
    if fetched == {} {
      return store, Fail(NoUserFound(ids));
    }
    var pending := fetched;
    var firstError: Option<string> := None;
    store' := store;
    while pending != {}
      invariant pending <= fetched
      invariant store'.Keys == store.Keys
      invariant forall id :: id in store ==>
                  store'[id] == if id in fetched - pending && saveError(id).None? then Grant(store[id], role) else store[id]
      invariant firstError.None? <==> forall id :: id in fetched - pending ==> saveError(id).None?
      invariant firstError.Some? ==> exists id :: id in fetched - pending && saveError(id) == firstError
      decreases pending
    {
      // a non-empty set has an element to pick
      assert exists x :: x in pending by {
        if forall x :: x !in pending {
          assert false;
        }
      }
      var id :| id in pending;
      match saveError(id) {
        case None =>
          store' := store'[id := Grant(store'[id], role)];
        case Some(e) =>
          if firstError.None? {
            firstError := Some(e);
          }
      }
      pending := pending - {id};
    }
    r := if firstError.Some? then Fail(SaveFailed(firstError.value)) else Pass;
    forall id | id in store
      ensures store'[id] == Granted(store, fetched, role, saveError)[id]
    {
    }
  }

  /** Running the same batch twice changes nothing more: role membership is a set. */
  lemma GrantedIdempotent(store: Store, fetched: set<UserId>, role: RoleId, saveError: UserId -> Option<string>)
    ensures Granted(Granted(store, fetched, role, saveError), fetched, role, saveError)
         == Granted(store, fetched, role, saveError)
  {
    var once := Granted(store, fetched, role, saveError);
    forall id | id in once
      ensures Granted(once, fetched, role, saveError)[id] == once[id]
    {
      if id in fetched && saveError(id).None? {
        assert once[id].roles + {role} == once[id].roles;
      }
    }
  }

  /** After a batch, each fetched user with a successful save holds the role and keeps
      every role it had; no other user's roles change. */
  lemma GrantedRoles(store: Store, fetched: set<UserId>, role: RoleId, saveError: UserId -> Option<string>, id: UserId)
    requires id in store
    ensures store[id].roles <= Granted(store, fetched, role, saveError)[id].roles
    ensures role in Granted(store, fetched, role, saveError)[id].roles <==>
              role in store[id].roles || (id in fetched && saveError(id).None?)
  {
  }
}

=== FILE: usernames.dfy ===
/** The two username checks of the user model: the schema pattern and the reserved-name filter. */
module Usernames {
  import opened Values

  const MinLength := 4
  const MaxLength := 30

  /** One character of the class `[A-Za-z0-9_-]`. */
  predicate IsUsernameChar(c: char) {
    ('A' <= c <= 'Z') || ('a' <= c <= 'z') || ('0' <= c <= '9') || c == '_' || c == '-'
  }

  /** The anchored pattern `^[A-Za-z0-9_-]{4,30}$`: between 4 and 30 characters, all from the class. */
  predicate MatchesPattern(u: string) {
    && MinLength <= |u| <= MaxLength
    && forall i :: 0 <= i < |u| ==> IsUsernameChar(u[i])
  }

  /** Decides the schema pattern by one left-to-right scan, the way an anchored
      bounded repetition is matched: reject on the first character outside the
      class, then check that the number of characters consumed is within bounds. */
  method MatchUsername(u: string) returns (ok: bool)
    ensures ok <==> MatchesPattern(u)
  {
    var count := 0;
    while count < |u|
      invariant 0 <= count <= |u|
      invariant forall j :: 0 <= j < count ==> IsUsernameChar(u[j])
    {
      if !IsUsernameChar(u[count]) {
        return false;
      }
      count := count + 1;
    }
    ok := MinLength <= count <= MaxLength;
  }

  /** The restricted usernames, in the order the source lists them. */
  const Restricted: seq<string> := ["logout", "login", "auth", "api", "admin", "account", "user"]

  /** The same names as a set: the reference the filter is checked against. */
  const RestrictedNames: set<string> := {"logout", "login", "auth", "api", "admin", "account", "user"}

  /** `Array.prototype.indexOf` with strict equality: the first position whose name is
      the value `u`, or -1. A value that is not a string equals no name. */
  function IndexOf(names: seq<string>, u: Value): (i: int)
    ensures -1 <= i < |names|
    ensures i == -1 <==> !(u.Str? && u.s in names)
    ensures 0 <= i ==> u == Str(names[i]) && forall j :: 0 <= j < i ==> u != Str(names[j])
  {
    if |names| == 0 then -1
    else if u == Str(names[0]) then 0
    else
      var j := IndexOf(names[1..], u);
      if j < 0 then -1 else j + 1
  }

  /** `validUsername`: false exactly for the restricted names, true for every other
      value, including every value that is not a string. */
  function ValidUsername(u: Value): (ok: bool)
    ensures ok <==> !(u.Str? && u.s in RestrictedNames)
  {
    IndexOf(Restricted, u) < 0
  }

  /** Every restricted name except "api" is well-formed for the schema pattern, so the
      filter rejects names the pattern alone would let through. */
  lemma OnlyApiFailsPattern()
    ensures forall n :: n in RestrictedNames ==> (MatchesPattern(n) <==> n != "api")
  {
  }
}

=== FILE: values.dfy ===
/** The JavaScript values that user payloads and records are made of. */
module Values {

  /** A value stored under one attribute of a payload or record.
      Numbers are modelled by integers (floating point and NaN are not modelled);
      `Object` stands for any object or array, whose content the model never inspects. */
  datatype Value = Undefined | Null | Bool(b: bool) | Num(n: int) | Str(s: string) | Object

  /** JavaScript truthiness, as used by `if (x)` and `!x`. */
  predicate Truthy(v: Value) {
    match v
    case Undefined => false
    case Null => false
    case Bool(b) => b
    case Num(n) => n != 0
    case Str(s) => |s| > 0
    case Object => true
  }

  /** A plain object: attribute name to value. A missing key reads as `undefined`. */
  type Payload = map<string, Value>

  /** Property read `obj.k`. */
  function Get(p: Payload, k: string): Value {
    if k in p then p[k] else Undefined
  }
}

=== FILE: wrappers.dfy ===
/** Failure-carrying datatypes shared by the user model. */
module Wrappers {

  /** A value that may be absent (JavaScript `null` / `undefined` where it only means "none"). */
  datatype Option<+T> = None | Some(value: T)

  /** The outcome of an operation that yields a value or reports an error to its callback. */
  datatype Result<+T, +E> = Success(value: T) | Failure(error: E)

  /** The outcome of an operation whose callback receives only an error, or nothing. */
  datatype Outcome<+E> = Pass | Fail(error: E)
}
